=== FILE: README.md ===
# Photo mosaic: a verified model of the mosaic pass

The photo-mosaic app turns an uploaded picture into a mosaic. It lays a grid of tiles over
the image, `size` pixels wide with `spacing` pixels of gutter between them. It samples
one pixel near the centre of each tile, and paints the tile as a square or a circle in that
colour. The pass exists twice:

- `processMosaic` in the React hook `useMosaicProcessor` first fills the canvas with the
  background colour;
- `processMosaic` in the Solid `Mosaic` component first clears the canvas to transparent, and
  raises a `processing` flag while the frame is pending.

A small helper, `hexToRGBA`, turns a hex colour and an opacity into a CSS `rgba(...)` string.

This project models these three pieces in Dafny:

- `colors.dfy` (`Colors`): the RGBA pixel value and transparent black.
- `surface.dfy` (`Surface`): the canvas as a class over a two-dimensional pixel array. It has
  three operations:
  - setting its size;
  - `Fill`, which stands for `fillRect`, `clearRect` and `arc` followed by `fill`. It writes
    the covered pixels and clips to the canvas;
  - `ResizeAndFill`, the preparation step both versions perform.
- `tiling.dfy` (`Tiling`): the tile loop shared by both versions, with:
  - the settings and the decoded image buffer (4 bytes per pixel, row-major);
  - the clamped centre sample at `(centerY * width + centerX) * 4`;
  - the pixel-by-pixel specification `MosaicPixel` of the finished surface;
  - the loops `DrawRow` and `DrawTiles`, proved against `MosaicPixel`;
  - lemmas on the tile grid: origins, bounds, gutters, disjoint tiles.
- `mosaic_hook.dfy` (`MosaicHook`): the React frame callback.
- `mosaic_component.dfy` (`MosaicComponent`): the Solid component as a class. It holds:
  - the mounted canvas;
  - the `processing` flag;
  - the queue of scheduled animation frames.

  It has the guarded `processMosaic`, the frame callback and the `createEffect` body.
- `hex_color.dfy` (`HexColor`): `hexToRGBA`, including JavaScript's `parseInt(…, 16)`:
  - leading white space, sign and `0x` prefix;
  - the longest run of hex digits;
  - NaN when there are no digits.

  It also includes the opacity clamp, the removal of the first `#`, the shorthand expansion
  and the decimal printing of the result.

Circles are modelled as the pixels whose centre lies inside the disk inscribed in the tile's
square. `InDisk` works in doubled integer coordinates, so it needs no floating point.

## Model

| member | source | states |
|---|---|---|
| Surface.Canvas.constructor | src/mosaic.tsx:86 | A new canvas element is a canvas of the given size, fully transparent. |
| Surface.Canvas.SetSize | src/hooks/useMosaicProcessor.ts:16-17 | Assigning width and height gives the surface exactly that size, with a fresh bitmap of transparent black. |
| Surface.Canvas.Fill | src/hooks/useMosaicProcessor.ts:69-81 | After a fill, every pixel the region covers inside the canvas holds the colour, and every other pixel keeps its old value. The clipped loops never index outside the canvas. |
| Surface.ResizeAndFill | src/hooks/useMosaicProcessor.ts:16-21 | The surface has the requested size, and every pixel holds the fill colour before any tile is drawn. The Solid version's `clearRect` (src/mosaic.tsx:28-32) is the same step with transparent black. |
| Surface.InDisk | src/hooks/useMosaicProcessor.ts:69-78 | A pixel whose centre lies in the disk inscribed in a d-by-d square (the disk of `arc(x + size/2, y + size/2, size/2)`) lies inside that square, at offsets 0 <= u, v < d. |
| Surface.Covers | src/hooks/useMosaicProcessor.ts:69-81 | A drawing call paints only pixels in its bounding box: `fillRect`/`clearRect` their rectangle, `arc` + `fill` the pixels of the inscribed disk. So a circle never reaches past its tile's square. |
| Tiling.PixelIndexInBounds | src/hooks/useMosaicProcessor.ts:60-65 | For a pixel inside the image, the index `(r * width + c) * 4` is a multiple of 4, and its four bytes lie inside the buffer. |
| Tiling.PixelAt | src/hooks/useMosaicProcessor.ts:60-65 | The pixel read from the buffer at `(r * width + c) * 4` has four channels, each a byte. |
| Tiling.Center | src/hooks/useMosaicProcessor.ts:52-59 | The clamped centre lies inside the image whenever the origin does, and never before the origin. When the tile fits, it lies inside the tile. Whenever half a tile (floored) past the origin is still inside the image, including a partial last tile, it is exactly that coordinate. Otherwise it is the last column or row. |
| Tiling.TileColor | src/hooks/useMosaicProcessor.ts:52-65 | The colour a tile is painted with is read from the image, so each of its four channels is a byte. |
| Tiling.SampleTile | src/hooks/useMosaicProcessor.ts:52-65 | The sampled position lies in the image and never before the tile's origin. Whenever half a tile (floored) past the origin is inside the image, it is exactly that coordinate, on each axis. Otherwise it is the last column or row. The four bytes at `(centerY * width + centerX) * 4` lie inside the buffer. The colour read is the pixel at that position, so it is the tile's colour, and each channel is a byte. |
| Tiling.AxisTile | src/hooks/useMosaicProcessor.ts:41-50 | On one axis, p lies in tile k's span `[k*step, k*step+size)` exactly when p's cell is k and its offset in the cell is below size. The offset is then `p - k*step`. |
| Tiling.AxisOrigins | src/hooks/useMosaicProcessor.ts:41-50 | Every origin the loop visits on an axis, starting from `from`, lies in `[from, length)`. |
| Tiling.AxisOriginsAt | src/hooks/useMosaicProcessor.ts:41-50 | Starting from `from`, the i-th visited origin is `from + i*step` and lies below the axis length, and the first origin not visited lies at or past the axis length. |
| Tiling.AxisOriginsSound | src/hooks/useMosaicProcessor.ts:41-50 | Every visited origin is a multiple of the step inside the axis. |
| Tiling.AxisOriginsComplete | src/hooks/useMosaicProcessor.ts:41-50 | Every multiple of the step inside the axis is visited. |
| Tiling.AxisOriginsExact | src/hooks/useMosaicProcessor.ts:41-50 | A value is a visited origin if and only if it is a multiple of size + spacing in `[0, length)`. |
| Tiling.AxisOriginsIncreasing | src/hooks/useMosaicProcessor.ts:41-50 | Origins are visited in strictly increasing order, so none is visited twice. |
| Tiling.CellIsUnique | src/hooks/useMosaicProcessor.ts:41-50 | Two step-wide cells that contain the same coordinate are the same cell, the one with index `p / step`. |
| Tiling.CellExists | src/hooks/useMosaicProcessor.ts:41-50 | Every coordinate lies in a step-wide cell, the one with index `p / step`. With `CellIsUnique`, each coordinate lies in exactly one cell. |
| Tiling.MosaicPixel | src/hooks/useMosaicProcessor.ts:41-81 | After the loop, each pixel either keeps what it held before or holds the colour of the tile whose cell contains it. No tile paints into another tile's cell. |
| Tiling.TilesDisjoint | src/hooks/useMosaicProcessor.ts:41-81 | Since the step is at least the tile size, the tiles of two distinct origins never paint the same pixel, whether square or circle. |
| Tiling.TileCovers | src/hooks/useMosaicProcessor.ts:69-81 | The tile at origin `(kx*step, ky*step)` paints pixel (c, r) exactly when (c, r) is in cell (kx, ky) at an offset its shape covers. |
| Tiling.GutterKeepsBackground | src/hooks/useMosaicProcessor.ts:79-81 | A pixel whose offset in its cell is at least size on either axis keeps what it held before the tiles: the background in the hook, transparent in the component. |
| Tiling.NoSpacingLeavesNoBackground | src/hooks/useMosaicProcessor.ts:41-50 | With square tiles and no spacing, every pixel takes its tile's colour and no background shows. |
| Tiling.UniformImageUnchanged | src/hooks/useMosaicProcessor.ts:52-81 | A single-colour image rendered with square tiles and no spacing comes out as that colour everywhere, whatever the background. This holds under the model's replacing fill; the canvas composites colours with alpha below 255 over what lies beneath. |
| Tiling.OversizedTileIsOneColor | src/hooks/useMosaicProcessor.ts:52-59 | A square tile at least as large as the image paints the whole surface in the colour sampled at the clamped centre of the first tile. |
| Tiling.PaintAdvances | src/hooks/useMosaicProcessor.ts:46-81 | Painting the tile at origin (x, y) turns the row state "final left of x" into "final left of x + step". |
| Tiling.DrawRow | src/hooks/useMosaicProcessor.ts:46-82 | After one row of tiles at origin y, the pixels of rows y to y + step - 1 hold `MosaicPixel` of their old value, and all others are untouched. The column origins visited are exactly those of `AxisOrigins`. |
| Tiling.DrawTiles | src/hooks/useMosaicProcessor.ts:41-83 | The loops terminate, and afterwards every pixel holds `MosaicPixel` of its old value: its cell's centre colour where the shape covers it, the old value elsewhere. The row origins visited are exactly those of `AxisOrigins`. |
| MosaicHook.ProcessMosaic | src/hooks/useMosaicProcessor.ts:13-85 | The canvas gets the image's size, and every pixel is the tile colour where a tile's shape covers it and the background colour everywhere else. |
| MosaicComponent.Mosaic.constructor | src/mosaic.tsx:11-15 | The component starts with no canvas, `processing` false and no frame scheduled. |
| MosaicComponent.Mosaic.Mount | src/mosaic.tsx:86 | Mounting sets the canvas reference and changes nothing else. |
| MosaicComponent.Mosaic.ProcessMosaic | src/mosaic.tsx:18-24 | Without a canvas or without an image, nothing changes. Otherwise `processing` becomes true and exactly one frame with these arguments is appended to the queue. |
| MosaicComponent.Mosaic.RunFrame | src/mosaic.tsx:24-70 | The oldest frame is removed from the queue, and the canvas gets its image's size. Each pixel is the tile colour where a shape covers it and transparent elsewhere. Then `processing` is false. |
| MosaicComponent.Mosaic.Effect | src/mosaic.tsx:73-78 | Without an image, or without a mounted canvas, nothing is scheduled and nothing changes. With an image and a mounted canvas, processing starts: exactly one frame with the current image, size, spacing and shape is appended. |
| HexColor.ClampOpacity | src/utils.ts:2-3 | The opacity lands in [0, 255]: negative becomes 0, above 255 becomes 255, and in-range values pass through. |
| HexColor.IndexOf | src/utils.ts:5 | The result is -1 exactly when the character is absent. Otherwise it is the position of its first occurrence. |
| HexColor.RemoveFirst | src/utils.ts:5 | Without a `#` the string is unchanged. With one, it is one character shorter: the part before the first `#` is kept, and the part after it follows directly. |
| HexColor.RemoveFirstCount | src/utils.ts:5 | Exactly one occurrence of the character is removed when there is one, and every other character count is unchanged. |
| HexColor.IndexOfAtMost | src/utils.ts:5 | The first occurrence is at or before any position holding the character. |
| HexColor.OnlyFirstHashRemoved | src/utils.ts:5 | A corollary of `RemoveFirst`'s contract: with two `#`s, a `#` survives in the result, and everything before the first `#` is kept in place. |
| HexColor.Expand | src/utils.ts:8-10 | A three-character string becomes six characters, with character k equal to input character k / 2. Any other length is unchanged. |
| HexColor.ExpandHex | src/utils.ts:8-10 | Expanding hex digits gives hex digits. |
| HexColor.ShorthandMatchesLonghand | src/utils.ts:8-10 | A three-character colour gives the same string as its doubled six-character form ("abc" as "aabbcc") for every opacity, provided none of the characters is a second `#`. |
| HexColor.DigitValue | src/utils.ts:13-15 | The value of a hex digit of either case is below 16. |
| HexColor.HexChar | src/utils.ts:13-15 | The digit written for d < 16 is a hex digit whose value is d. |
| HexColor.HexValue | src/utils.ts:13-15 | A string of n hex digits is worth less than 16^n. |
| HexColor.TrimStart | src/utils.ts:13-15 | Removing leading white space never lengthens the string. |
| HexColor.TrimStartSpec | src/utils.ts:13-15 | The trimmed string is a suffix, everything removed is white space, and what remains does not start with white space. |
| HexColor.HexPrefix | src/utils.ts:13-15 | The digit run `parseInt` reads is made of hex digits and is no longer than its input. |
| HexColor.HexPrefixSpec | src/utils.ts:13-15 | The digit run is a prefix of its input, and it ends only at the end of the input or before a character that is not a hex digit. |
| HexColor.HexPrefixAll | src/utils.ts:13-15 | On hex digits, the digit run is the whole string. |
| HexColor.ParseInt16 | src/utils.ts:13-15 | `parseInt(s, 16)` of the empty string is NaN, and any number it returns has magnitude below 16 to the power of the length of s. |
| HexColor.ParseIntOfDigits | src/utils.ts:13-15 | `parseInt(s, 16)` on hex digits is NaN for the empty string and the base-16 value of all the digits otherwise. |
| HexColor.ParseIntShort | src/utils.ts:13-15 | `parseInt(…, 16)` of at most two characters is NaN or an integer in [-15, 255]. |
| HexColor.Substring | src/utils.ts:13-15 | `substring(a, b)` has length b - a, shortened when the string ends first and 0 when it starts past the end. |
| HexColor.SubstringHex | src/utils.ts:13-15 | A substring of hex digits is hex digits. |
| HexColor.Channels | src/utils.ts:5-15 | A channel whose pair lies past the end of the digits is NaN. With no digits all three are NaN, with at most two green and blue are, and with at most four blue is. |
| HexColor.ChannelsInRange | src/utils.ts:13-15 | For any input at all, each channel is NaN or an integer in [-15, 255]. |
| HexColor.PairOfDigits | src/utils.ts:13-15 | Over hex digits, the pair at [a, a+2) is a number exactly when the digits reach past a, and the number is a byte. |
| HexColor.ChannelsAreBytes | src/utils.ts:13-15 | For a well-formed colour, r, g and b are numbers exactly when the digits reach into their pair (a four-digit colour has blue NaN), and each number is in [0, 255]. |
| HexColor.HexPairValue | src/utils.ts:13-15 | Two hex digits are worth 16 times the first plus the second. |
| HexColor.HexByte | src/utils.ts:13-15 | A byte is written as exactly two hex digits. |
| HexColor.HexByteValue | src/utils.ts:13-15 | Parsing the two hex digits of a byte gives the byte back. |
| HexColor.StripLeadingHash | src/utils.ts:5 | A leading `#` before hex digits is the one removed, leaving exactly the digits. |
| HexColor.PairsOfDigits | src/utils.ts:13-15 | Three two-digit pairs written one after another are read back pair by pair. |
| HexColor.HexRoundTripChannels | src/utils.ts:13-15 | Writing bytes r, g, b as "#rrggbb" and parsing gives back r, g and b. |
| HexColor.Decimal | src/utils.ts:18 | A number prints as at least one decimal digit, and only digits. |
| HexColor.DecimalRoundTrip | src/utils.ts:18 | Reading back the printed decimal digits gives the number. |
| HexColor.Show | src/utils.ts:18 | Only NaN prints as "NaN". A non-negative number prints as decimal digits that read back as the number. A negative one prints as `-` followed by the digits of its magnitude. |
| HexColor.HexToRgba | src/utils.ts:1-19 | Whatever the colour and the opacity, the result has the form `rgba(…)`. |
| HexColor.HexRoundTrip | src/utils.ts:18 | The result for "#rrggbb" is exactly `rgba(r, g, b, o)`, with r, g, b the bytes written and o the clamped opacity. |
| HexColor.ChannelsValue | src/utils.ts:5-15 | For any well-formed colour with six digits after expansion (`#rrggbb`, `rrggbb` or shorthand `#rgb`, either case), each channel is the base-16 value of its pair [0,2), [2,4) or [4,6). |
| HexColor.HexToRgbaValue | src/utils.ts:1-19 | For any such colour, the result is exactly `rgba(r, g, b, o)`, with r, g, b the base-16 values of the three pairs and o the clamped opacity. |

## Left out

- Anti-aliased circle rasterisation. The canvas draws `arc` with floating-point
  coordinates and partial coverage at the edge. The model paints exactly the pixels whose centre
  lies inside the disk, at full strength.
- Source-over compositing. Every fill replaces the pixels it covers. The canvas blends a
  tile of alpha below 255 over what lies beneath it.
- Alpha normalisation (`a / 255`) and the CSS `rgba(...)` fill-style string given to the canvas.
  The tile colour keeps the raw alpha byte.
- `requestAnimationFrame`, the Promise around the React pass and the `getContext` failure paths
  (`if (!ctx) return`). The frame callback is modelled as a method that runs when called. The
  Solid component's scheduled frames are a queue that `RunFrame` consumes.
- Decoding the image through a temporary canvas (`drawImage`, `getImageData`). The decoded byte
  buffer is the input `Image`.
- Solid's reactive scheduling. `Effect` is the body of the `createEffect` callback, run when
  called. When it reruns is not modelled.
- The background colour's type. The hook reads `settings.color` while the settings type
  declares `backgroundColor`. The model takes the background as a given RGBA value.
- Tiling.DrawTiles: requires size >= 1 and spacing >= 0. With size + spacing <= 0 the source's
  loops never end. A negative spacing would make tiles overlap, which the model does not cover.
  The UI sliders give size 4..50 and spacing 0..10.
- MosaicComponent.Mosaic.RunFrame: requires the frame's size >= 1 and gap >= 0, for the same
  reason. Scheduling a frame accepts any values.
- HexColor.HexToRgba: strings are sequences of Unicode code points, not UTF-16 code units.
  Outside the Basic Multilingual Plane, JavaScript's `length`, indexing, `indexOf` and `substring`
  count a character as two units, so the results differ (for "\u{1F600}a" the source sees
  length 3, the model length 2). For colours made of ASCII characters the two agree.
- HexColor.HexToRgba: its own contract gives only the `rgba(…)` form. The exact result is stated by
  `HexToRgbaValue` for every well-formed colour with six digits after expansion (with or without
  `#`, either case, shorthand included). Colours of other lengths, or with characters that are not
  hex digits, are covered only by `Channels`, `ChannelsInRange` and `ChannelsAreBytes`.
- HexColor.HexToRgba: the opacity is an integer. A fractional or NaN opacity passes the source's
  comparisons unchanged and is printed as JavaScript prints numbers, which is not modelled.
- Tile averaging and GPU rendering. Neither exists in the mosaic pass, which samples one
  pixel per tile on the CPU.
- The upload components, control panels, colour picker and application wiring. These are user
  interface composition with no computation of their own.

=== FILE: colors.dfy ===
/** Colours as the 2D canvas stores them: four 8-bit channels per pixel. */
module Colors {

  /** One pixel: red, green, blue and alpha, each a byte (alpha kept raw, 0..255). */
  datatype Rgba = Rgba(r: int, g: int, b: int, a: int)

  predicate IsByte(v: int) {
    0 <= v <= 255
  }

  /** Transparent black: what a freshly sized or cleared canvas holds. */
  const Transparent: Rgba := Rgba(0, 0, 0, 0)
}

=== FILE: hex_color.dfy ===
/**
 * `hexToRGBA`: turns a CSS hex colour ("#rgb" or "#rrggbb", the `#`
 * optional) and an opacity into the string `rgba(r, g, b, opacity)`.
 * The channels are what JavaScript's `parseInt(…, 16)` yields for the
 * substrings [0,2), [2,4) and [4,6): a number, or NaN when the substring
 * holds no hex digit where one is expected (in particular when it is empty,
 * for a colour too short to have that channel).
 */
module HexColor {

  /** A value `parseInt` can return: an integer or NaN. */
  datatype Channel = NaN | Num(v: int)

  /** Opacity is clamped to [0, 255]. */
  function ClampOpacity(opacity: int): (o: int)
    ensures 0 <= o <= 255
    ensures opacity < 0 ==> o == 0
    ensures opacity > 255 ==> o == 255
    ensures 0 <= opacity <= 255 ==> o == opacity
  {
    if opacity < 0 then 0 else if opacity > 255 then 255 else opacity
  }

  /** Position of the first `ch` in `s`, or -1 (`String.prototype.indexOf`). */
  function IndexOf(s: string, ch: char): (i: int)
    ensures -1 <= i < |s|
    ensures i == -1 <==> ch !in s
    ensures 0 <= i ==> s[i] == ch && ch !in s[..i]
  {
    if s == [] then -1
    else if s[0] == ch then 0
    else
      var j := IndexOf(s[1..], ch);
      assert s[1..][..j + 1] == s[..j + 2][1..];
      if j < 0 then -1 else j + 1
  }

  /**
   * `s.replace(ch, '')` with a one-character string pattern: only the first
   * occurrence of `ch` is removed, and the string is unchanged if there is none.
   */
  function RemoveFirst(s: string, ch: char): (t: string)
    ensures ch !in s ==> t == s
    ensures ch in s ==> |t| == |s| - 1
    ensures ch in s ==> t[..IndexOf(s, ch)] == s[..IndexOf(s, ch)] && t[IndexOf(s, ch)..] == s[IndexOf(s, ch) + 1..]
  {
    var i := IndexOf(s, ch);
    if i < 0 then s else s[..i] + s[i + 1..]
  }

  /** Exactly one occurrence of `ch` is removed when there is one, and nothing else changes count. */
  lemma RemoveFirstCount(s: string, ch: char)
    ensures multiset(RemoveFirst(s, ch)) == multiset(s) - multiset{ch}
  {
    var i := IndexOf(s, ch);
    if i >= 0 {
      assert s == s[..i] + [s[i]] + s[i + 1..];
    }
  }

  /** The first occurrence of `ch` is at or before any position that holds `ch`. */
  lemma {:induction false} IndexOfAtMost(s: string, ch: char, i: nat)
    requires i < |s| && s[i] == ch
    ensures 0 <= IndexOf(s, ch) <= i
  {
    if s[0] != ch {
      IndexOfAtMost(s[1..], ch, i - 1);
    }
  }

  /**
   * Corollary of `RemoveFirst`'s contract, spelled out for a colour with two
   * `#`s: only the first goes, so a second one survives in the result, and
   * everything before the first one is kept in place.
   */
  lemma OnlyFirstHashRemoved(s: string, i: nat, j: nat)
    requires i < j < |s| && s[i] == '#' && s[j] == '#'
    ensures '#' in RemoveFirst(s, '#')
    ensures RemoveFirst(s, '#')[..IndexOf(s, '#')] == s[..IndexOf(s, '#')]
  {
    IndexOfAtMost(s, '#', i);
    var first := IndexOf(s, '#');
    var t := s[..first] + s[first + 1..];
    assert RemoveFirst(s, '#') == t;
    assert t[j - 1] == s[j];
    assert t[j - 1] in t;
    assert t[..first] == s[..first];
  }

  predicate IsHexDigit(ch: char) {
    '0' <= ch <= '9' || 'a' <= ch <= 'f' || 'A' <= ch <= 'F'
  }

  predicate AllHex(s: string) {
    forall i :: 0 <= i < |s| ==> IsHexDigit(s[i])
  }

  /** The value of one hex digit, either case. */
  function DigitValue(ch: char): (d: nat)
    requires IsHexDigit(ch)
    ensures d < 16
  {
    if '0' <= ch <= '9' then ch as int - '0' as int
    else if 'a' <= ch <= 'f' then ch as int - 'a' as int + 10
    else ch as int - 'A' as int + 10
  }

  /** The lower-case hex digit for d < 16. */
  function HexChar(d: nat): (ch: char)
    requires d < 16
    ensures IsHexDigit(ch) && DigitValue(ch) == d
  {
    if d < 10 then ('0' as int + d) as char else ('a' as int + d - 10) as char
  }

  function Pow16(n: nat): (p: nat)
    ensures p >= 1
  {
    if n == 0 then 1 else 16 * Pow16(n - 1)
  }

  lemma {:induction false} Pow16Mono(a: nat, b: nat)
    requires a <= b
    ensures Pow16(a) <= Pow16(b)
  {
    if a < b {
      Pow16Mono(a, b - 1);
    }
  }

  /** The base-16 value of a string of hex digits, most significant first. */
  function HexValue(s: string): (v: nat)
    requires AllHex(s)
    ensures v < Pow16(|s|)
  {
    if s == [] then 0 else HexValue(s[..|s| - 1]) * 16 + DigitValue(s[|s| - 1])
  }

  /** The characters `parseInt` skips at the front: JavaScript white space and line terminators. */
  predicate IsSpace(ch: char) {
    ch == '\t' || ch == '\U{B}' || ch == '\U{C}' || ch == ' ' || ch == '\U{A0}' || ch == '\U{FEFF}' ||
    ch == '\n' || ch == '\r' || ch == '\U{2028}' || ch == '\U{2029}' ||
    ch == '\U{1680}' || ('\U{2000}' <= ch <= '\U{200A}') || ch == '\U{202F}' || ch == '\U{205F}' || ch == '\U{3000}'
  }

  /** `s` without its leading white space. */
  function TrimStart(s: string): (t: string)
    ensures |t| <= |s|
  {
    if s != [] && IsSpace(s[0]) then TrimStart(s[1..]) else s
  }

  /** What `TrimStart` removes is white space, and what it leaves does not start with any. */
  lemma {:induction false} TrimStartSpec(s: string)
    ensures TrimStart(s) == s[|s| - |TrimStart(s)|..]
    ensures forall k :: 0 <= k < |s| - |TrimStart(s)| ==> IsSpace(s[k])
    ensures TrimStart(s) != [] ==> !IsSpace(TrimStart(s)[0])
  {
    if s != [] && IsSpace(s[0]) {
      TrimStartSpec(s[1..]);
      forall k | 1 <= k < |s| - |TrimStart(s)|
        ensures IsSpace(s[k])
      {
        assert s[k] == s[1..][k - 1];
      }
    }
  }

  /** The longest prefix of `s` made of hex digits. */
  function HexPrefix(s: string): (p: string)
    ensures |p| <= |s| && AllHex(p)
  {
    if s != [] && IsHexDigit(s[0]) then [s[0]] + HexPrefix(s[1..]) else []
  }

  /** `HexPrefix` is a prefix, and it stops only at the end or at a character that is not a hex digit. */
  lemma {:induction false} HexPrefixSpec(s: string)
    ensures HexPrefix(s) == s[..|HexPrefix(s)|]
    ensures |HexPrefix(s)| < |s| ==> !IsHexDigit(s[|HexPrefix(s)|])
  {
    if s != [] && IsHexDigit(s[0]) {
      HexPrefixSpec(s[1..]);
    }
  }

  /** The sign `parseInt` accepts after the white space: true for `-`. */
  function Negative(t: string): bool {
    t != [] && t[0] == '-'
  }

  /** `t` without its sign, if it has one. */
  function Unsigned(t: string): string {
    if t != [] && (t[0] == '-' || t[0] == '+') then t[1..] else t
  }

  /** `u` without a `0x` or `0X` prefix, which radix 16 allows. */
  function NoRadixPrefix(u: string): string {
    if |u| >= 2 && u[0] == '0' && (u[1] == 'x' || u[1] == 'X') then u[2..] else u
  }

  /**
   * `parseInt(s, 16)`: leading white space is skipped, then an optional sign,
   * then an optional `0x`/`0X` prefix; the longest run of hex digits that
   * follows is the value, and NaN results when that run is empty.
   */
  function ParseInt16(s: string): (p: Channel)
    ensures s == [] ==> p == NaN
    ensures p.Num? ==> -(Pow16(|s|) as int) < p.v < Pow16(|s|)
  {
    var t := TrimStart(s);
    var d := HexPrefix(NoRadixPrefix(Unsigned(t)));
    if d == [] then NaN
    else
      var v: int := HexValue(d);
      Pow16Mono(|d|, |s|);
      Num(if Negative(t) then -v else v)
  }

  /** A string of hex digits is its own longest hex prefix. */
  lemma {:induction false} HexPrefixAll(s: string)
    requires AllHex(s)
    ensures HexPrefix(s) == s
  {
    if s != [] {
      HexPrefixAll(s[1..]);
    }
  }

  /** On a string of hex digits, `parseInt` reads all of them: NaN only for the empty string. */
  lemma ParseIntOfDigits(s: string)
    requires AllHex(s)
    ensures ParseInt16(s) == if s == [] then NaN else Num(HexValue(s))
  {
    if s != [] {
      assert IsHexDigit(s[0]);
      assert TrimStart(s) == s;
      assert Unsigned(s) == s && !Negative(s);
      assert |s| >= 2 ==> IsHexDigit(s[1]);
      assert NoRadixPrefix(s) == s;
      HexPrefixAll(s);
    }
  }

  /**
   * `parseInt` of at most two characters is NaN or lies in [-15, 255]: two
   * digits make at most ff, and a sign leaves room for one digit only.
   */
  lemma ParseIntShort(s: string)
    requires |s| <= 2
    ensures ParseInt16(s).Num? ==> -15 <= ParseInt16(s).v <= 255
  {
    assert Pow16(1) == 16 && Pow16(2) == 256;
  }

  /** `s.substring(a, b)` for 0 <= a <= b: both ends are clamped to the length. */
  function Substring(s: string, a: nat, b: nat): (t: string)
    requires a <= b
    ensures |t| == (if b <= |s| then b - a else if a <= |s| then |s| - a else 0)
  {
    var i := if a <= |s| then a else |s|;
    var j := if b <= |s| then b else |s|;
    s[i..j]
  }

  /** A substring of hex digits is hex digits. */
  lemma SubstringHex(s: string, a: nat, b: nat)
    requires a <= b && AllHex(s)
    ensures AllHex(Substring(s, a, b))
  {
    var t := Substring(s, a, b);
    var i := if a <= |s| then a else |s|;
    assert forall k :: 0 <= k < |t| ==> t[k] == s[i + k];
  }

  /** A three-digit shorthand doubles every digit; any other length is kept. */
  function Expand(h: string): (e: string)
    ensures |h| == 3 ==> |e| == 6 && forall k :: 0 <= k < 6 ==> e[k] == h[k / 2]
    ensures |h| != 3 ==> e == h
  {
    if |h| == 3 then [h[0], h[0], h[1], h[1], h[2], h[2]] else h
  }

  /** A well-formed colour: hex digits only, once the first `#` is gone. */
  predicate ValidHex(hex: string) {
    AllHex(RemoveFirst(hex, '#'))
  }

  /** The string `hexToRGBA` parses: first `#` removed, shorthand expanded. */
  function Digits(hex: string): string {
    Expand(RemoveFirst(hex, '#'))
  }

  /** The three parsed channels, from the character pairs [0,2), [2,4) and [4,6). */
  function Channels(hex: string): (c: (Channel, Channel, Channel))
    ensures Digits(hex) == [] ==> c.0 == NaN
    ensures |Digits(hex)| <= 2 ==> c.1 == NaN
    ensures |Digits(hex)| <= 4 ==> c.2 == NaN
  {
    var h := Digits(hex);
    (ParseInt16(Substring(h, 0, 2)), ParseInt16(Substring(h, 2, 4)), ParseInt16(Substring(h, 4, 6)))
  }

  /** Whatever the input, every channel is NaN or an integer in [-15, 255]. */
  lemma ChannelsInRange(hex: string)
    ensures var (r, g, b) := Channels(hex);
      (r.Num? ==> -15 <= r.v <= 255) && (g.Num? ==> -15 <= g.v <= 255) && (b.Num? ==> -15 <= b.v <= 255)
  {
    var h := Digits(hex);
    ParseIntShort(Substring(h, 0, 2));
    ParseIntShort(Substring(h, 2, 4));
    ParseIntShort(Substring(h, 4, 6));
  }

  predicate IsDecimal(s: string) {
    forall i :: 0 <= i < |s| ==> '0' <= s[i] <= '9'
  }

  /** The decimal digits of n, as a template literal prints a number. */
  function Decimal(n: nat): (s: string)
    ensures |s| >= 1 && IsDecimal(s)
  {
    if n < 10 then [('0' as int + n) as char]
    else Decimal(n / 10) + [('0' as int + n % 10) as char]
  }

  /** The value of a string of decimal digits. */
  function DecimalValue(s: string): nat
    requires IsDecimal(s)
  {
    if s == [] then 0 else DecimalValue(s[..|s| - 1]) * 10 + (s[|s| - 1] as int - '0' as int)
  }

  /** Printing a number in decimal loses nothing: reading the digits back gives it. */
  lemma {:induction false} DecimalRoundTrip(n: nat)
    ensures DecimalValue(Decimal(n)) == n
  {
    if n >= 10 {
      DecimalRoundTrip(n / 10);
      var s := Decimal(n);
      assert s[..|s| - 1] == Decimal(n / 10);
    }
  }

  /** How a template literal prints a channel. */
  function Show(ch: Channel): (t: string)
    ensures ch.NaN? <==> t == "NaN"
    ensures ch.Num? && ch.v >= 0 ==> IsDecimal(t) && DecimalValue(t) == ch.v
    ensures ch.Num? && ch.v < 0 ==> |t| >= 2 && t[0] == '-' && IsDecimal(t[1..]) && DecimalValue(t[1..]) == -ch.v
  {
    match ch
    case NaN => "NaN"
    case Num(v) =>
      DecimalRoundTrip(if v < 0 then -v else v);
      var t := if v < 0 then "-" + Decimal(-v) else Decimal(v);
      assert t[0] != "NaN"[0];
      t
  }

  /** `hexToRGBA(hex, opacity)`. */
  function HexToRgba(hex: string, opacity: int): (s: string)
    ensures |s| > 5 && s[..5] == "rgba(" && s[|s| - 1] == ')'
  {
    var (r, g, b) := Channels(hex);
    var s := "rgba(" + Show(r) + ", " + Show(g) + ", " + Show(b) + ", " + Decimal(ClampOpacity(opacity)) + ")";
    assert s[..5] == "rgba(";
    s
  }

  /** A two-digit hex string is worth 16 times its first digit plus its second. */
  lemma HexPairValue(s: string)
    requires |s| == 2 && AllHex(s)
    ensures HexValue(s) == 16 * DigitValue(s[0]) + DigitValue(s[1])
  {
    assert s[..1][..0] == [];
  }

  /** Doubling the digits of a shorthand keeps them hex digits. */
  lemma ExpandHex(x: string)
    requires AllHex(x)
    ensures AllHex(Expand(x))
  {
    var e := Expand(x);
    if |x| == 3 {
      forall k | 0 <= k < 6
        ensures IsHexDigit(e[k])
      {
        assert e[k] == x[k / 2];
      }
    }
  }

  /**
   * Read from a string of hex digits, the pair at [a, a+2) is a number
   * exactly when the string reaches past `a`, and then it is a byte.
   */
  lemma PairOfDigits(h: string, a: nat)
    requires AllHex(h)
    ensures ParseInt16(Substring(h, a, a + 2)).Num? <==> |h| > a
    ensures ParseInt16(Substring(h, a, a + 2)).Num? ==> 0 <= ParseInt16(Substring(h, a, a + 2)).v <= 255
  {
    var pair := Substring(h, a, a + 2);
    SubstringHex(h, a, a + 2);
    ParseIntOfDigits(pair);
    assert Pow16(2) == 256;
    assert pair == [] <==> |h| <= a;
  }

  /**
   * For a well-formed colour, each channel is a number exactly when the
   * digits reach into its pair (so a 4-digit colour has no blue, NaN), and a
   * number is always a byte.
   */
  lemma ChannelsAreBytes(hex: string)
    requires ValidHex(hex)
    ensures var h, (r, g, b) := Digits(hex), Channels(hex);
      (r.Num? <==> |h| >= 1) && (g.Num? <==> |h| >= 3) && (b.Num? <==> |h| >= 5) &&
      (r.Num? ==> 0 <= r.v <= 255) && (g.Num? ==> 0 <= g.v <= 255) && (b.Num? ==> 0 <= b.v <= 255)
  {
    var h := Digits(hex);
    ExpandHex(RemoveFirst(hex, '#'));
    PairOfDigits(h, 0);
    PairOfDigits(h, 2);
    PairOfDigits(h, 4);
  }

  /**
   * A shorthand colour reads like its doubled form: "abc" gives what
   * "aabbcc" gives, whatever the three characters, as long as none is a
   * second `#`.
   */
  lemma ShorthandMatchesLonghand(hex: string, opacity: int)
    requires |RemoveFirst(hex, '#')| == 3 && '#' !in RemoveFirst(hex, '#')
    ensures HexToRgba(hex, opacity) == HexToRgba(Expand(RemoveFirst(hex, '#')), opacity)
  {
    var x := RemoveFirst(hex, '#');
    var e := Expand(x);
    forall k | 0 <= k < |e|
      ensures e[k] != '#'
    {
      assert e[k] == x[k / 2] && x[k / 2] in x;
    }
    assert RemoveFirst(e, '#') == e;
    assert Digits(e) == e == Digits(hex);
  }

  /** The two lower-case hex digits of a byte. */
  function HexByte(v: nat): (s: string)
    requires v <= 255
    ensures |s| == 2 && AllHex(s)
  {
    [HexChar(v / 16), HexChar(v % 16)]
  }

  /** Reading back the two hex digits of a byte gives the byte. */
  lemma HexByteValue(v: nat)
    requires v <= 255
    ensures HexValue(HexByte(v)) == v
  {
    HexPairValue(HexByte(v));
  }

  /** A leading `#` before plain hex digits is the one `hexToRGBA` strips. */
  lemma StripLeadingHash(digits: string)
    requires AllHex(digits)
    ensures RemoveFirst("#" + digits, '#') == digits
  {
    var hex := "#" + digits;
    assert IndexOf(hex, '#') == 0;
    assert hex[1..] == digits;
  }

  /** Three two-digit strings put together are six hex digits, and the pairs read back are the parts. */
  lemma PairsOfDigits(hr: string, hg: string, hb: string)
    requires |hr| == 2 && |hg| == 2 && |hb| == 2 && AllHex(hr) && AllHex(hg) && AllHex(hb)
    ensures AllHex(hr + hg + hb) && |hr + hg + hb| == 6
    ensures Substring(hr + hg + hb, 0, 2) == hr
    ensures Substring(hr + hg + hb, 2, 4) == hg
    ensures Substring(hr + hg + hb, 4, 6) == hb
  {
    var digits := hr + hg + hb;
    assert forall k :: 0 <= k < 6 ==> digits[k] == (if k < 2 then hr[k] else if k < 4 then hg[k - 2] else hb[k - 4]);
    assert digits[0..2] == hr;
    assert digits[2..4] == hg;
    assert digits[4..6] == hb;
  }

  /** Writing bytes r, g, b as "#rrggbb" and parsing the channels gives back r, g and b. */
  lemma HexRoundTripChannels(r: nat, g: nat, b: nat)
    requires r <= 255 && g <= 255 && b <= 255
    ensures ValidHex("#" + HexByte(r) + HexByte(g) + HexByte(b))
    ensures Channels("#" + HexByte(r) + HexByte(g) + HexByte(b)) == (Num(r), Num(g), Num(b))
  {
    var hr, hg, hb := HexByte(r), HexByte(g), HexByte(b);
    var digits := hr + hg + hb;
    PairsOfDigits(hr, hg, hb);
    assert "#" + hr + hg + hb == "#" + digits;
    StripLeadingHash(digits);
    assert Digits("#" + digits) == digits;
    ParseIntOfDigits(hr);
    ParseIntOfDigits(hg);
    ParseIntOfDigits(hb);
    HexByteValue(r);
    HexByteValue(g);
    HexByteValue(b);
  }

  /**
   * Round trip: converting the "#rrggbb" form of bytes r, g, b gives
   * `rgba(r, g, b, opacity)` with the clamped opacity.
   */
  lemma HexRoundTrip(r: nat, g: nat, b: nat, opacity: int)
    requires r <= 255 && g <= 255 && b <= 255
    ensures ValidHex("#" + HexByte(r) + HexByte(g) + HexByte(b))
    ensures HexToRgba("#" + HexByte(r) + HexByte(g) + HexByte(b), opacity) ==
      "rgba(" + Decimal(r) + ", " + Decimal(g) + ", " + Decimal(b) + ", " + Decimal(ClampOpacity(opacity)) + ")"
  {
    var hex := "#" + HexByte(r) + HexByte(g) + HexByte(b);
    HexRoundTripChannels(r, g, b);
    assert Show(Num(r)) == Decimal(r) && Show(Num(g)) == Decimal(g) && Show(Num(b)) == Decimal(b);
  }

  /**
   * For any well-formed colour of six digits after expansion ("#rrggbb",
   * "rrggbb" or the shorthand "#rgb", in either case), each channel is the
   * base-16 value of its pair [0,2), [2,4), [4,6).
   */
  lemma ChannelsValue(hex: string)
    requires ValidHex(hex) && |Digits(hex)| == 6
    ensures var h := Digits(hex);
      AllHex(h[0..2]) && AllHex(h[2..4]) && AllHex(h[4..6]) &&
      Channels(hex) == (Num(HexValue(h[0..2])), Num(HexValue(h[2..4])), Num(HexValue(h[4..6])))
  {
    var h := Digits(hex);
    ExpandHex(RemoveFirst(hex, '#'));
    SubstringHex(h, 0, 2);
    SubstringHex(h, 2, 4);
    SubstringHex(h, 4, 6);
    assert Substring(h, 0, 2) == h[0..2];
    assert Substring(h, 2, 4) == h[2..4];
    assert Substring(h, 4, 6) == h[4..6];
    ParseIntOfDigits(h[0..2]);
    ParseIntOfDigits(h[2..4]);
    ParseIntOfDigits(h[4..6]);
  }

  /**
   * The exact result for any well-formed six-digit colour: `rgba(r, g, b, o)`
   * with r, g, b the base-16 values of the three pairs and o the clamped opacity.
   */
  lemma HexToRgbaValue(hex: string, opacity: int)
    requires ValidHex(hex) && |Digits(hex)| == 6
    ensures var h := Digits(hex);
      AllHex(h[0..2]) && AllHex(h[2..4]) && AllHex(h[4..6]) &&
      HexToRgba(hex, opacity) ==
        "rgba(" + Decimal(HexValue(h[0..2])) + ", " + Decimal(HexValue(h[2..4])) + ", " +
        Decimal(HexValue(h[4..6])) + ", " + Decimal(ClampOpacity(opacity)) + ")"
  {
    var h := Digits(hex);
    ChannelsValue(hex);
    var r, g, b := HexValue(h[0..2]), HexValue(h[2..4]), HexValue(h[4..6]);
    assert Show(Num(r)) == Decimal(r) && Show(Num(g)) == Decimal(g) && Show(Num(b)) == Decimal(b);
  }
}

=== FILE: mosaic_component.dfy ===
/**
 * The Solid version of the pass (`Mosaic` component): a guarded
 * `processMosaic` that raises the `processing` flag and schedules a frame,
 * the frame callback that clears the canvas and runs the tile loop, and the
 * effect that starts processing whenever an image is present.
 */
module MosaicComponent {
  import opened Colors
  import opened Surface
  import opened Tiling

  datatype Option<T> = None | Some(value: T)

  /** The arguments of one scheduled frame: image, tile size, gap and shape. */
  datatype Job = Job(img: Image, size: int, gap: int, shape: Shape) {
    /** The tile loop of this frame ends and its tiles do not overlap: size >= 1 and gap >= 0. */
    predicate Drawable() {
      Settings(size, gap, shape).Valid()
    }
  }

  class Mosaic {
    /** The `<canvas>` element once mounted (`canvasRef`), null before. */
    var canvasRef: Canvas?
    /** The `processing` signal, shown as "Processing mosaic...". */
    var processing: bool
    /** The frame callbacks scheduled with `requestAnimationFrame` and not yet run, oldest first. */
    var frames: seq<Job>

    ghost predicate Valid()
      reads this
    {
      (frames != [] ==> canvasRef != null) &&
      forall i :: 0 <= i < |frames| ==> frames[i].img.Valid()
    }

    constructor ()
      ensures Valid()
      ensures canvasRef == null && !processing && frames == []
    {
      canvasRef := null;
      processing := false;
      frames := [];
    }

    /** The `ref={canvasRef}` binding: the canvas element is mounted. */
    method Mount(canvas: Canvas)
      requires Valid()
      modifies this
      ensures Valid()
      ensures canvasRef == canvas && processing == old(processing) && frames == old(frames)
    {
      canvasRef := canvas;
    }

    /**
     * `processMosaic(img, size, gap, shapeType)`: without a mounted canvas or
     * without an image nothing happens; otherwise `processing` becomes true
     * and one frame is scheduled with these arguments.
     */
    method ProcessMosaic(img: Option<Image>, size: int, gap: int, shape: Shape)
      requires Valid()
      requires img.Some? ==> img.value.Valid()
      modifies this
      ensures Valid()
      ensures canvasRef == old(canvasRef)
      ensures old(canvasRef) == null || img.None? ==>
        processing == old(processing) && frames == old(frames)
      ensures old(canvasRef) != null && img.Some? ==>
        processing && frames == old(frames) + [Job(img.value, size, gap, shape)]
    {
      if canvasRef == null || img.None? {
        return;
      }
      processing := true;
      frames := frames + [Job(img.value, size, gap, shape)];
    }

    /**
     * The browser runs the oldest scheduled frame callback: the canvas takes
     * the image's size, is cleared to transparent, and the tile loop runs;
     * then `processing` becomes false. Gutters stay transparent.
     */
    method RunFrame()
      requires Valid() && frames != [] && frames[0].Drawable()
      modifies this, canvasRef
      ensures Valid()
      ensures canvasRef == old(canvasRef) && !processing && frames == old(frames)[1..]
      ensures var job := old(frames)[0];
        canvasRef.Width() == job.img.width && canvasRef.Height() == job.img.height &&
        forall r, c :: 0 <= r < job.img.height && 0 <= c < job.img.width ==>
          canvasRef.pixels[r, c] == MosaicPixel(job.img, Settings(job.size, job.gap, job.shape), Transparent, c, r)
    {
      var job := frames[0];
      frames := frames[1..];
      var canvas := canvasRef;
      ResizeAndFill(canvas, job.img.width, job.img.height, Transparent);
      ghost var rows := DrawTiles(canvas, job.img, Settings(job.size, job.gap, job.shape));
      processing := false;
    }

    /**
     * The `createEffect` body: when the image signal holds an image, process
     * it with the current size, spacing and shape; otherwise do nothing.
     */
    method Effect(img: Option<Image>, size: int, gap: int, shape: Shape)
      requires Valid()
      requires img.Some? ==> img.value.Valid()
      modifies this
      ensures Valid()
      ensures canvasRef == old(canvasRef)
      ensures img.None? || old(canvasRef) == null ==> processing == old(processing) && frames == old(frames)
      ensures img.Some? && old(canvasRef) != null ==>
        processing && frames == old(frames) + [Job(img.value, size, gap, shape)]
    {
      if img.Some? {
        ProcessMosaic(img, size, gap, shape);
      }
    }
  }
}

=== FILE: mosaic_hook.dfy ===
/**
 * The React version of the pass (`useMosaicProcessor`): size the canvas to
 * the image, fill it with the background colour, then run the tile loop.
 */
module MosaicHook {
  import opened Colors
  import opened Surface
  import opened Tiling

  /**
   * One run of the frame callback of `processMosaic`. The decoded pixel
   * buffer of the image is the input `img`; `background` is the settings'
   * colour. Afterwards the canvas has the image's size; gutters and the
   * corners around circles show the background, and every other pixel shows
   * its tile's centre sample.
   */
  method ProcessMosaic(canvas: Canvas, img: Image, s: Settings, background: Rgba)
    requires img.Valid() && s.Valid()
    modifies canvas
    ensures canvas.Width() == img.width && canvas.Height() == img.height
    ensures forall r, c :: 0 <= r < img.height && 0 <= c < img.width ==>
      canvas.pixels[r, c] == MosaicPixel(img, s, background, c, r)
  {
    ResizeAndFill(canvas, img.width, img.height, background);
    ghost var rows := DrawTiles(canvas, img, s);
  }
}

=== FILE: surface.dfy ===
/**
 * The render surface: an HTML canvas as the mosaic pass uses it, reduced to
 * its pixel grid and the three drawing calls the pass makes (setting the
 * size, `fillRect`/`clearRect`, and `arc` followed by `fill`).
 */
module Surface {
  import opened Colors

  /**
   * The area one drawing call paints. `Rect` is the box of `fillRect` and
   * `clearRect`; `Disk` is the disk that `arc(x + d/2, y + d/2, d/2, 0, 2π)`
   * followed by `fill()` paints, given by its bounding square of side `d`.
   */
  datatype Region =
    | Rect(x: int, y: int, w: nat, h: nat)
    | Disk(x: int, y: int, d: nat)

  function Min(a: int, b: int): int {
    if a <= b then a else b
  }

  function Max(a: int, b: int): int {
    if a <= b then b else a
  }

  /**
   * Pixel (u, v) of a d-by-d square, counted from the square's top-left
   * corner, has its centre inside the inscribed disk. Doubling every
   * coordinate keeps the test integral: the pixel centre is (2u+1, 2v+1),
   * the disk centre (d, d) and its radius d. Every such pixel lies in the
   * square itself.
   */
  predicate InDisk(d: nat, u: int, v: int): (b: bool)
    ensures b ==> 0 <= u < d && 0 <= v < d
  {
    var a, e := 2 * u + 1 - d, 2 * v + 1 - d;
    if a * a + e * e <= d * d then
      assert a * a >= 0 && e * e >= 0;
      SquareBound(a, d);
      SquareBound(e, d);
      true
    else
      false
  }

  /** Pixel (c, r) lies in the bounding box of the region. */
  predicate InBox(reg: Region, c: int, r: int) {
    match reg
    case Rect(x, y, w, h) => x <= c < x + w && y <= r < y + h
    case Disk(x, y, d) => x <= c < x + d && y <= r < y + d
  }

  /**
   * The drawing call for `reg` paints pixel (c, r) (column c, row r). No
   * call paints outside its bounding box: a disk stays within its square.
   */
  predicate Covers(reg: Region, c: int, r: int): (b: bool)
    ensures b ==> InBox(reg, c, r)
  {
    match reg
    case Rect(x, y, w, h) => InBox(reg, c, r)
    case Disk(x, y, d) => InDisk(d, c - x, r - y)
  }

  /** If a*a <= d*d with d >= 0, then |a| <= d. */
  lemma SquareBound(a: int, d: int)
    requires d >= 0 && a * a <= d * d
    ensures -d <= a <= d
  {
  }

  /** A canvas: `pixels[r, c]` is the pixel in row r, column c. */
  class Canvas {
    var pixels: array2<Rgba>

    function Width(): nat
      reads this
    {
      pixels.Length1
    }

    function Height(): nat
      reads this
    {
      pixels.Length0
    }

    /** A new canvas element of the given size, fully transparent. */
    constructor (w: nat, h: nat)
      ensures Width() == w && Height() == h
      ensures forall r, c :: 0 <= r < h && 0 <= c < w ==> pixels[r, c] == Transparent
    {
      pixels := new Rgba[h, w]((r, c) => Transparent);
    }

    /**
     * Assigning `canvas.width` and `canvas.height`: the surface takes the new
     * size and its bitmap is reset to transparent black.
     */
    method SetSize(w: nat, h: nat)
      modifies this
      ensures fresh(pixels)
      ensures Width() == w && Height() == h
      ensures forall r, c :: 0 <= r < h && 0 <= c < w ==> pixels[r, c] == Transparent
    {
      pixels := new Rgba[h, w]((r, c) => Transparent);
    }

    /**
     * Paints `reg` in `col`, clipped to the canvas: the pixels the region
     * covers take the colour, every other pixel keeps its value. The loops
     * walk only the region's box clipped to the canvas, so no index is ever
     * out of range, whatever the region's position.
     */
    method Fill(reg: Region, col: Rgba)
      modifies pixels
      ensures forall r, c :: 0 <= r < Height() && 0 <= c < Width() ==>
        pixels[r, c] == (if Covers(reg, c, r) then col else old(pixels[r, c]))
    {
      var left, top := reg.x, reg.y;
      var bw, bh := if reg.Rect? then reg.w else reg.d, if reg.Rect? then reg.h else reg.d;
      var x0 := Max(left, 0);
      var x1 := Max(x0, Min(left + bw, pixels.Length1));
      var y0 := Max(top, 0);
      var y1 := Max(y0, Min(top + bh, pixels.Length0));
      var r := y0;
      while r < y1
        invariant y0 <= r <= y1
        invariant forall i, j :: 0 <= i < pixels.Length0 && 0 <= j < pixels.Length1 ==>
          pixels[i, j] == (if Covers(reg, j, i) && i < r then col else old(pixels[i, j]))
      {
        var c := x0;
        while c < x1
          invariant x0 <= c <= x1
          invariant forall i, j :: 0 <= i < pixels.Length0 && 0 <= j < pixels.Length1 ==>
            pixels[i, j] == (if Covers(reg, j, i) && (i < r || (i == r && j < c)) then col else old(pixels[i, j]))
        {
          if Covers(reg, c, r) {
            pixels[r, c] := col;
          }
          c := c + 1;
        }
        r := r + 1;
      }
    }
  }

  /**
   * The preparation both versions of the pass make: the surface takes the
   * given size and is then painted over entirely in `col` (`fillRect` with
   * the background colour, or `clearRect` for transparent). Before any
   * tile is drawn, every pixel holds `col`.
   */
  method ResizeAndFill(canvas: Canvas, w: nat, h: nat, col: Rgba)
    modifies canvas
    ensures fresh(canvas.pixels)
    ensures canvas.Width() == w && canvas.Height() == h
    ensures forall r, c :: 0 <= r < h && 0 <= c < w ==> canvas.pixels[r, c] == col
  {
    canvas.SetSize(w, h);
    canvas.Fill(Rect(0, 0, canvas.Width(), canvas.Height()), col);
  }
}

=== FILE: tiling.dfy ===
/**
 * The CPU mosaic pass shared by both versions of `processMosaic`: the grid of
 * tile origins, the clamped centre sample, and the loop that paints one
 * shape per tile. The function `MosaicPixel` states, pixel by pixel, what the
 * surface holds once the loop has finished; the lemmas below it prove the
 * properties the pass relies on (in-bounds sampling, gutters, disjoint tiles).
 */
module Tiling {
  import opened Colors
  import opened Surface

  datatype Shape = Square | Circle

  /** Tile size and spacing (the UI sliders give 4..50 and 0..10) and the tile shape. */
  datatype Settings = Settings(size: int, spacing: int, shape: Shape) {
    predicate Valid() {
      size >= 1 && spacing >= 0
    }

    /** Distance between consecutive tile origins on either axis. */
    function Step(): nat
      requires Valid()
    {
      size + spacing
    }
  }

  /** A decoded image: `data` holds 4 bytes (R, G, B, A) per pixel, row by row. */
  datatype Image = Image(width: nat, height: nat, data: seq<int>) {
    predicate Valid() {
      |data| == 4 * width * height &&
      forall i :: 0 <= i < |data| ==> IsByte(data[i])
    }
  }

  /** Index of the first byte of pixel (c, r) in the image's byte buffer. */
  function PixelIndex(img: Image, c: nat, r: nat): nat {
    (r * img.width + c) * 4
  }

  /** The four bytes of pixel (c, r) never lie past the end of the buffer. */
  lemma PixelIndexInBounds(img: Image, c: nat, r: nat)
    requires img.Valid() && c < img.width && r < img.height
    ensures PixelIndex(img, c, r) % 4 == 0
    ensures PixelIndex(img, c, r) + 3 < |img.data|
  {
    var w, h := img.width, img.height;
    assert r * w <= (h - 1) * w by {
      assert (h - 1) * w - r * w == (h - 1 - r) * w;
    }
    assert (h - 1) * w + w == h * w;
    assert r * w + c < h * w;
    assert (r * w + c) * 4 + 4 <= h * w * 4;
  }

  /** The colour of pixel (c, r), copied channel by channel from the buffer. */
  function PixelAt(img: Image, c: nat, r: nat): (col: Rgba)
    requires img.Valid() && c < img.width && r < img.height
    ensures IsByte(col.r) && IsByte(col.g) && IsByte(col.b) && IsByte(col.a)
  {
    PixelIndexInBounds(img, c, r);
    var i := PixelIndex(img, c, r);
    assert IsByte(img.data[i]) && IsByte(img.data[i + 1]) && IsByte(img.data[i + 2]) && IsByte(img.data[i + 3]);
    Rgba(img.data[i], img.data[i + 1], img.data[i + 2], img.data[i + 3])
  }

  /**
   * The coordinate sampled for a tile whose origin is `o` on an axis of
   * length `extent`: half a tile (rounded down) past the origin, clamped to
   * the last column or row. It lies inside the image whenever the origin
   * does and never precedes the origin; when the tile fits wholly inside the
   * image it lies inside the tile; whenever half a tile past the origin is
   * still inside the image it is exactly that coordinate, and otherwise it
   * is the last coordinate.
   */
  function Center(o: nat, size: int, extent: nat): (c: nat)
    requires size >= 1 && o < extent
    ensures o <= c < extent
    ensures o + size <= extent ==> c == o + size / 2 < o + size
    ensures o + size / 2 < extent ==> c == o + size / 2
    ensures o + size / 2 >= extent ==> c == extent - 1
  {
    Min(o + size / 2, extent - 1)
  }

  /** The representative colour of the tile with origin (x, y): its clamped centre pixel. */
  function TileColor(img: Image, s: Settings, x: nat, y: nat): (col: Rgba)
    requires img.Valid() && s.Valid() && x < img.width && y < img.height
    ensures IsByte(col.r) && IsByte(col.g) && IsByte(col.b) && IsByte(col.a)
  {
    PixelAt(img, Center(x, s.size, img.width), Center(y, s.size, img.height))
  }

  /** The area the pass paints for the tile with origin (x, y): a square or its inscribed disk. */
  function TileRegion(s: Settings, x: nat, y: nat): Region
    requires s.Valid()
  {
    if s.shape == Circle then Disk(x, y, s.size) else Rect(x, y, s.size, s.size)
  }

  /** Position (u, v) within a tile's step-by-step cell is painted by the tile's shape. */
  predicate InShape(s: Settings, u: nat, v: nat)
    requires s.Valid()
  {
    u < s.size && v < s.size && (s.shape == Circle ==> InDisk(s.size, u, v))
  }

  /** The origin of the tile cell that coordinate p falls in, on either axis. */
  function Origin(s: Settings, p: nat): nat
    requires s.Valid()
  {
    p - p % s.Step()
  }

  /**
   * What pixel (c, r) holds after the tile loop, given that it held `back`
   * before: the colour of the tile whose cell contains it if the tile's shape
   * paints it, and `back` otherwise (gutters and the corners a disk leaves).
   */
  function MosaicPixel(img: Image, s: Settings, back: Rgba, c: nat, r: nat): (p: Rgba)
    requires img.Valid() && s.Valid() && c < img.width && r < img.height
    ensures p == back || p == TileColor(img, s, Origin(s, c), Origin(s, r))
  {
    if InShape(s, c % s.Step(), r % s.Step())
    then TileColor(img, s, Origin(s, c), Origin(s, r))
    else back
  }

  /** Product monotonicity for the tile-index arithmetic below. */
  lemma MulStrict(a: int, b: int, step: nat)
    requires step >= 1 && a < b
    ensures a * step + step <= b * step
  {
    assert b * step - a * step == (b - a) * step;
    assert (b - a) * step >= step by {
      assert (b - a) * step - step == (b - a - 1) * step;
    }
  }

  /** One more cell is one more step. */
  lemma MulSucc(m: nat, step: nat)
    ensures (m + 1) * step == m * step + step
  {
  }

  /** A coordinate below the origin of cell k lies in an earlier cell. */
  lemma DivBelow(p: nat, k: nat, step: nat)
    requires step >= 1 && p < k * step
    ensures p / step < k
  {
    var q := p / step;
    assert q * step <= p;
    if q > k {
      MulStrict(k, q, step);
    }
  }

  /**
   * On one axis, coordinate p lies in the box [k*step, k*step + size) of
   * tile k exactly when k is p's cell index and p's offset in the cell is
   * below `size`; the offset is then p - k*step. So a tile's box is the set
   * of pixels whose cell is that tile's and which are not in the gutter.
   */
  lemma AxisTile(step: nat, size: int, k: nat, p: nat)
    requires 1 <= size <= step
    ensures (k * step <= p < k * step + size) <==> (p / step == k && p % step < size)
    ensures k * step <= p < k * step + size ==> p % step == p - k * step
  {
    var q, m := p / step, p % step;
    assert p == q * step + m && 0 <= m < step;
    if k * step <= p < k * step + size {
      if q < k {
        MulStrict(q, k, step);
      } else if q > k {
        MulStrict(k, q, step);
      }
    }
    if q == k && m < size {
      assert p == k * step + m;
    }
  }

  /** Origins on one axis from `from` onwards, `step` apart, below `n`: the values the loop variable takes. */
  function AxisOrigins(from: nat, n: nat, step: nat): (xs: seq<nat>)
    requires step >= 1
    ensures forall i :: 0 <= i < |xs| ==> from <= xs[i] < n
    decreases n - from
  {
    if from >= n then [] else [from] + AxisOrigins(from + step, n, step)
  }

  /** One more loop iteration: the origin `x` moves from the pending list to the visited one. */
  lemma AxisOriginsNext(visited: seq<nat>, x: nat, n: nat, step: nat)
    requires step >= 1 && x < n
    requires visited + AxisOrigins(x, n, step) == AxisOrigins(0, n, step)
    ensures (visited + [x]) + AxisOrigins(x + step, n, step) == AxisOrigins(0, n, step)
  {
    assert AxisOrigins(x, n, step) == [x] + AxisOrigins(x + step, n, step);
  }

  /** When the loop variable reaches `n`, nothing is pending: the visited list is complete. */
  lemma AxisOriginsEnd(visited: seq<nat>, x: nat, n: nat, step: nat)
    requires step >= 1 && x >= n
    requires visited + AxisOrigins(x, n, step) == AxisOrigins(0, n, step)
    ensures visited == AxisOrigins(0, n, step)
  {
  }

  /**
   * The origins visited from `from` are from, from + step, from + 2*step, ...:
   * the i-th is from + i*step and lies below `n`, and the first one not
   * visited lies at or past `n`.
   */
  lemma {:induction false} AxisOriginsAt(from: nat, n: nat, step: nat)
    requires step >= 1
    ensures forall i :: 0 <= i < |AxisOrigins(from, n, step)| ==>
      AxisOrigins(from, n, step)[i] == from + i * step < n
    ensures from + |AxisOrigins(from, n, step)| * step >= n
    decreases n - from
  {
    if from < n {
      var xs, rest := AxisOrigins(from, n, step), AxisOrigins(from + step, n, step);
      assert xs == [from] + rest;
      AxisOriginsAt(from + step, n, step);
      forall i | 0 <= i < |xs|
        ensures xs[i] == from + i * step < n
      {
        if i > 0 {
          assert xs[i] == rest[i - 1] == from + step + (i - 1) * step;
        }
      }
      MulSucc(|rest|, step);
    }
  }

  /** A multiple of `step` leaves no remainder and divides back exactly. */
  lemma MultipleOfStep(k: nat, step: nat)
    requires step >= 1
    ensures (k * step) % step == 0 && (k * step) / step == k
  {
    AxisTile(step, step, k, k * step);
  }

  /** Every visited origin is a multiple of `step` inside the axis. */
  lemma AxisOriginsSound(n: nat, step: nat, i: nat)
    requires step >= 1 && i < |AxisOrigins(0, n, step)|
    ensures AxisOrigins(0, n, step)[i] < n && AxisOrigins(0, n, step)[i] % step == 0
  {
    AxisOriginsAt(0, n, step);
    MultipleOfStep(i, step);
  }

  /** Every multiple of `step` inside the axis is visited. */
  lemma AxisOriginsComplete(n: nat, step: nat, o: nat)
    requires step >= 1 && o < n && o % step == 0
    ensures o in AxisOrigins(0, n, step)
  {
    var xs := AxisOrigins(0, n, step);
    var k := o / step;
    assert o == k * step;
    AxisOriginsAt(0, n, step);
    DivBelow(o, |xs|, step);
    assert xs[k] == o;
  }

  /**
   * From 0, the origins visited on an axis of length n are exactly the
   * multiples of `step` below n.
   */
  lemma AxisOriginsExact(n: nat, step: nat, o: int)
    requires step >= 1
    ensures o in AxisOrigins(0, n, step) <==> (0 <= o < n && o % step == 0)
  {
    var xs := AxisOrigins(0, n, step);
    if o in xs {
      var i :| 0 <= i < |xs| && xs[i] == o;
      AxisOriginsSound(n, step, i);
    }
    if 0 <= o < n && o % step == 0 {
      AxisOriginsComplete(n, step, o);
    }
  }

  /** The origins are visited in strictly increasing order. */
  lemma AxisOriginsIncreasing(n: nat, step: nat)
    requires step >= 1
    ensures forall i, j :: 0 <= i < j < |AxisOrigins(0, n, step)| ==>
      AxisOrigins(0, n, step)[i] < AxisOrigins(0, n, step)[j]
  {
    var xs := AxisOrigins(0, n, step);
    AxisOriginsAt(0, n, step);
    forall i, j | 0 <= i < j < |xs|
      ensures xs[i] < xs[j]
    {
      MulStrict(i, j, step);
    }
  }

  /**
   * Every coordinate lies in exactly one tile cell [k*step, (k+1)*step): the
   * cells' bounding boxes cover the surface without overlap.
   */
  lemma CellIsUnique(step: nat, p: nat, k1: nat, k2: nat)
    requires step >= 1
    requires k1 * step <= p < k1 * step + step
    requires k2 * step <= p < k2 * step + step
    ensures k1 == k2 == p / step
  {
    AxisTile(step, step, k1, p);
    AxisTile(step, step, k2, p);
  }

  /** Every coordinate lies in some cell: the one whose index is p / step. */
  lemma CellExists(step: nat, p: nat)
    requires step >= 1
    ensures (p / step) * step <= p < (p / step) * step + step
  {
    AxisTile(step, step, p / step, p);
  }

  /**
   * Two different tiles never paint the same pixel: the step is at least
   * the tile size, so the boxes of distinct origins are disjoint.
   */
  lemma TilesDisjoint(s: Settings, x1: nat, y1: nat, x2: nat, y2: nat, c: nat, r: nat)
    requires s.Valid()
    requires x1 % s.Step() == 0 && y1 % s.Step() == 0
    requires x2 % s.Step() == 0 && y2 % s.Step() == 0
    requires (x1, y1) != (x2, y2)
    ensures !(Covers(TileRegion(s, x1, y1), c, r) && Covers(TileRegion(s, x2, y2), c, r))
  {
    var step := s.Step();
    assert x1 == (x1 / step) * step && x2 == (x2 / step) * step;
    assert y1 == (y1 / step) * step && y2 == (y2 / step) * step;
    AxisTile(step, s.size, x1 / step, c);
    AxisTile(step, s.size, x2 / step, c);
    AxisTile(step, s.size, y1 / step, r);
    AxisTile(step, s.size, y2 / step, r);
  }

  /**
   * The tile with origin (x, y) = (kx*step, ky*step) paints pixel (c, r)
   * exactly when (c, r) falls in cell (kx, ky) at a position the tile's
   * shape covers; the link between the loop's drawing calls and `MosaicPixel`.
   */
  lemma TileCovers(s: Settings, kx: nat, ky: nat, c: nat, r: nat)
    requires s.Valid()
    ensures Covers(TileRegion(s, kx * s.Step(), ky * s.Step()), c, r) <==>
      (c / s.Step() == kx && r / s.Step() == ky && InShape(s, c % s.Step(), r % s.Step()))
  {
    var step := s.Step();
    AxisTile(step, s.size, kx, c);
    AxisTile(step, s.size, ky, r);
  }

  /** Pixels in a gutter (offset at least `size` on either axis) keep what they held. */
  lemma GutterKeepsBackground(img: Image, s: Settings, back: Rgba, c: nat, r: nat)
    requires img.Valid() && s.Valid() && c < img.width && r < img.height
    requires c % s.Step() >= s.size || r % s.Step() >= s.size
    ensures MosaicPixel(img, s, back, c, r) == back
  {
  }

  /**
   * With no spacing and square tiles, every pixel takes its tile's colour:
   * no background shows anywhere.
   */
  lemma NoSpacingLeavesNoBackground(img: Image, s: Settings, back: Rgba, c: nat, r: nat)
    requires img.Valid() && s.Valid() && c < img.width && r < img.height
    requires s.spacing == 0 && s.shape == Square
    ensures MosaicPixel(img, s, back, c, r) == TileColor(img, s, Origin(s, c), Origin(s, r))
  {
  }

  /** Every pixel of the image has colour `col`. */
  ghost predicate Uniform(img: Image, col: Rgba)
    requires img.Valid()
  {
    forall c, r :: 0 <= c < img.width && 0 <= r < img.height ==> PixelAt(img, c, r) == col
  }

  /**
   * A uniform image rendered with square tiles and no spacing comes out
   * unchanged: every pixel keeps the image's colour, whatever the background.
   */
  lemma UniformImageUnchanged(img: Image, s: Settings, back: Rgba, col: Rgba, c: nat, r: nat)
    requires img.Valid() && s.Valid() && c < img.width && r < img.height
    requires s.spacing == 0 && s.shape == Square && Uniform(img, col)
    ensures MosaicPixel(img, s, back, c, r) == col
  {
    var x, y := Origin(s, c), Origin(s, r);
    assert TileColor(img, s, x, y) == PixelAt(img, Center(x, s.size, img.width), Center(y, s.size, img.height));
  }

  /**
   * A tile at least as large as the image on both axes makes one square
   * tile: every pixel takes the colour sampled at the clamped centre of the
   * tile at the origin.
   */
  lemma OversizedTileIsOneColor(img: Image, s: Settings, back: Rgba, c: nat, r: nat)
    requires img.Valid() && s.Valid() && c < img.width && r < img.height
    requires s.shape == Square && s.size >= img.width && s.size >= img.height
    ensures MosaicPixel(img, s, back, c, r) == TileColor(img, s, 0, 0)
  {
    var step := s.Step();
    AxisTile(step, s.size, 0, c);
    AxisTile(step, s.size, 0, r);
  }

  /** The next multiple of `step`. */
  lemma NextMultiple(x: nat, step: nat)
    requires step >= 1 && x % step == 0
    ensures (x + step) % step == 0
  {
    assert x == (x / step) * step;
    assert x + step == (x / step + 1) * step;
    MultipleOfStep(x / step + 1, step);
  }

  /**
   * What pixel (c, r) holds while the tile loop of the tile row at origin y
   * is at the tile with origin x, given that it held `back` when the row
   * began: the pixels of that tile row left of x are final, every other
   * pixel is untouched.
   */
  ghost function RowProgress(img: Image, s: Settings, back: Rgba, x: nat, y: nat, c: nat, r: nat): Rgba
    requires img.Valid() && s.Valid() && c < img.width && r < img.height
  {
    if y <= r < y + s.Step() && c < x then MosaicPixel(img, s, back, c, r) else back
  }

  /** Painting the tile with origin (x, y) advances its row by one tile. */
  lemma PaintAdvances(img: Image, s: Settings, back: Rgba, x: nat, y: nat, c: nat, r: nat)
    requires img.Valid() && s.Valid() && c < img.width && r < img.height
    requires x % s.Step() == 0 && y % s.Step() == 0 && x < img.width && y < img.height
    ensures RowProgress(img, s, back, x + s.Step(), y, c, r) ==
      if Covers(TileRegion(s, x, y), c, r) then TileColor(img, s, x, y) else RowProgress(img, s, back, x, y, c, r)
  {
    var step := s.Step();
    var kx, ky := x / step, y / step;
    assert x == kx * step && y == ky * step;
    TileCovers(s, kx, ky, c, r);
    AxisTile(step, step, kx, c);
    AxisTile(step, step, ky, r);
    if c / step == kx && r / step == ky {
      assert Origin(s, c) == x && Origin(s, r) == y;
    }
  }

  /**
   * The sampling step of the loop body: the centre coordinates half a tile
   * past the origin, clamped to the last column and row, the byte index
   * `(centerY * width + centerX) * 4`, and the four bytes read from there.
   */
  method SampleTile(img: Image, s: Settings, x: nat, y: nat) returns (color: Rgba, centerX: nat, centerY: nat)
    requires img.Valid() && s.Valid() && x < img.width && y < img.height
    ensures x <= centerX < img.width && y <= centerY < img.height
    ensures x + s.size <= img.width ==> centerX == x + s.size / 2
    ensures y + s.size <= img.height ==> centerY == y + s.size / 2
    ensures x + s.size / 2 < img.width ==> centerX == x + s.size / 2
    ensures y + s.size / 2 < img.height ==> centerY == y + s.size / 2
    ensures x + s.size / 2 >= img.width ==> centerX == img.width - 1
    ensures y + s.size / 2 >= img.height ==> centerY == img.height - 1
    ensures (centerY * img.width + centerX) * 4 + 3 < |img.data|
    ensures color == PixelAt(img, centerX, centerY)
    ensures color == TileColor(img, s, x, y)
    ensures IsByte(color.r) && IsByte(color.g) && IsByte(color.b) && IsByte(color.a)
  {
    centerX := Min(x + s.size / 2, img.width - 1);
    centerY := Min(y + s.size / 2, img.height - 1);
    var pixelIndex := (centerY * img.width + centerX) * 4;
    PixelIndexInBounds(img, centerX, centerY);
    assert pixelIndex == PixelIndex(img, centerX, centerY);
    color := Rgba(img.data[pixelIndex], img.data[pixelIndex + 1], img.data[pixelIndex + 2], img.data[pixelIndex + 3]);
  }

  /**
   * One row of the tile loop: origins x = 0, step, 2*step, ... while inside
   * the image, at row origin y. Each tile paints its shape in the colour
   * sampled at its clamped centre. Afterwards the pixels of the tile row,
   * rows y to y + step - 1, are final and all others untouched. The ghost
   * result records the column origins.
   */
  method DrawRow(canvas: Canvas, img: Image, s: Settings, y: nat) returns (ghost cols: seq<nat>)
    requires img.Valid() && s.Valid() && y % s.Step() == 0 && y < img.height
    requires canvas.Height() == img.height && canvas.Width() == img.width
    modifies canvas.pixels
    ensures forall r, c :: 0 <= r < img.height && 0 <= c < img.width ==>
      canvas.pixels[r, c] ==
        (if y <= r < y + s.Step() then MosaicPixel(img, s, old(canvas.pixels[r, c]), c, r) else old(canvas.pixels[r, c]))
    ensures cols == AxisOrigins(0, img.width, s.Step())
  {
    var step := s.Step();
    var x := 0;
    cols := [];
    while x < img.width
      invariant x % step == 0
      invariant cols + AxisOrigins(x, img.width, step) == AxisOrigins(0, img.width, step)
      invariant forall r, c :: 0 <= r < img.height && 0 <= c < img.width ==>
        canvas.pixels[r, c] == RowProgress(img, s, old(canvas.pixels[r, c]), x, y, c, r)
    {
      var color, centerX, centerY := SampleTile(img, s, x, y);
      label before:
      canvas.Fill(TileRegion(s, x, y), color);
      forall r, c | 0 <= r < img.height && 0 <= c < img.width
        ensures canvas.pixels[r, c] == RowProgress(img, s, old(canvas.pixels[r, c]), x + step, y, c, r)
      {
        assert old@before(canvas.pixels[r, c]) == RowProgress(img, s, old(canvas.pixels[r, c]), x, y, c, r);
        PaintAdvances(img, s, old(canvas.pixels[r, c]), x, y, c, r);
      }
      AxisOriginsNext(cols, x, img.width, step);
      cols := cols + [x];
      NextMultiple(x, step);
      x := x + step;
    }
    AxisOriginsEnd(cols, x, img.width, step);
  }

  /**
   * The tile loop of `processMosaic`: rows of tiles with origins y = 0,
   * step, 2*step, ... while inside the image, step = size + spacing, which
   * is at least 1, so the loop ends. Afterwards every pixel is `MosaicPixel`
   * of what it held before. The ghost result records the row origins
   * visited (each row visits the column origins `DrawRow` records).
   */
  method DrawTiles(canvas: Canvas, img: Image, s: Settings) returns (ghost rows: seq<nat>)
    requires img.Valid() && s.Valid()
    requires canvas.Height() == img.height && canvas.Width() == img.width
    modifies canvas.pixels
    ensures canvas.Height() == img.height && canvas.Width() == img.width
    ensures forall r, c :: 0 <= r < img.height && 0 <= c < img.width ==>
      canvas.pixels[r, c] == MosaicPixel(img, s, old(canvas.pixels[r, c]), c, r)
    ensures rows == AxisOrigins(0, img.height, s.Step())
  {
    var step := s.Step();
    var y := 0;
    rows := [];
    while y < img.height
      invariant y % step == 0
      invariant rows + AxisOrigins(y, img.height, step) == AxisOrigins(0, img.height, step)
      invariant forall r, c :: 0 <= r < img.height && 0 <= c < img.width ==>
        canvas.pixels[r, c] == (if r < y then MosaicPixel(img, s, old(canvas.pixels[r, c]), c, r) else old(canvas.pixels[r, c]))
    {
      label before:
      ghost var cols := DrawRow(canvas, img, s, y);
      forall r, c | 0 <= r < img.height && 0 <= c < img.width
        ensures canvas.pixels[r, c] ==
          (if r < y + step then MosaicPixel(img, s, old(canvas.pixels[r, c]), c, r) else old(canvas.pixels[r, c]))
      {
        assert old@before(canvas.pixels[r, c]) ==
          (if r < y then MosaicPixel(img, s, old(canvas.pixels[r, c]), c, r) else old(canvas.pixels[r, c]));
      }
      AxisOriginsNext(rows, y, img.height, step);
      rows := rows + [y];
      NextMultiple(y, step);
      y := y + step;
    }
    AxisOriginsEnd(rows, y, img.height, step);
  }
}
